=== FILE: README.md ===
# etcd-manager node state machine in Dafny

This project models the cluster-formation and reconciliation core of
etcd-manager's `EtcdServer` (`pkg/etcd/etcdserver.go`). Each node keeps three
fields under one mutex: the persisted `state` (an optional cluster of
formation token plus members, and a `NewCluster` flag), the ephemeral
`prepared` reservation (token plus `validUntil`), and the `process` handle
of the etcd it supervises. Every handler holds the mutex for its whole body,
so each handler is modelled as one atomic, pure transition from a `Server`
record to the next. The transition returns a `Step`: the handler's result
and the node afterwards.

The outside world enters each transition as explicit arguments:

- the current time, as a nanosecond count (`now: nat`);
- the answer of the leadership check (`isLeader`);
- whether each state-file write, process start and process stop succeeds;
- what a live process reports about its exit;
- whether the backup store opens, and the backup reply.

The state file `<baseDir>/state` is an abstract disk slot (`Disk`). It holds
no file, a decodable state, an unreadable file or undecodable bytes.

Files:

- `wrappers.dfy`: `Option` and `Result`.
- `types.dfy`: nodes, clusters, state, reservation, process, server, requests, errors.
- `persist.dfy`: `readState` / `writeState` over the disk slot.
- `startprocess.dfy`: `stringSlicesEqual` and `startEtcdProcess`, that is, resolving the unique local member.
- `server.dfy`: the handlers `GetInfo`, `JoinCluster` (with its three phases), `DoBackup`, `runOnce` and `StopEtcdProcess`.
- `safety.dfy`: the node as an event-driven state machine, the invariant every call preserves, and the recovery and idempotence lemmas.
- `scenarios.dfy`: the protocol's worked scenarios, proved for all nodes, times and tokens.

The main safety results:

- **No commit without a reservation.** A commit phase succeeds only if no process is live and an unexpired reservation for the request's token exists (`EtcdServer.JoinCluster`).
- **A unique self.** From a fresh node, any sequence of calls keeps this true: a live process runs the in-memory cluster, and its `me` is the one member whose client URLs equal the node's (`Safety.NoStartWithoutUniqueSelf`).

Behaviour of `etcdserver.go` worth noting:

- A successful commit does not clear the reservation. It stays until it expires, or until a later call finds it expired and drops it.
- DoBackup does not raise a single "invalid argument" error. It checks `Storage == ""` and then a nil `State`, each with its own error.
- Lazy expiry happens before the phase dispatch. So an unknown phase, or a refused PREPARE or commit, still drops an expired reservation.
- `startEtcdProcess` can panic instead of returning an error. This happens when the state has no cluster (line 299) and when the local node has no client URLs (line 320). The model returns `Panicked(...)` in both cases.

## Model

| member | source | states |
|---|---|---|
| `Persist.ReadState` | pkg/etcd/etcdserver.go:65-82 | a missing state file yields no state and no error; a readable, decodable file yields exactly its record; otherwise a read or parse error |
| `Persist.WriteState` | pkg/etcd/etcdserver.go:84-96 | a write succeeds exactly when the oracle says so, and what it writes reads back as the same state (round trip) |
| `StartProcess.StringSlicesEqual` | pkg/etcd/etcdserver.go:365-375 | the length-then-index loop returns true exactly when the two slices are equal sequences |
| `StartProcess.AgreeFrom` | pkg/etcd/etcdserver.go:369-374 | the loop from index i returns true exactly when the suffixes from i agree |
| `StartProcess.ScanSelf` | pkg/etcd/etcdserver.go:303-317 | the member scan succeeds exactly when one member matches in total, fails with "not included" when none matches and with "multiple" when two or more match; on success it returns the single match |
| `StartProcess.SingleMatchIffUnique` | pkg/etcd/etcdserver.go:303-317 | the list of matching members is exactly [me] if and only if me is a member with the local client URLs and no two positions carry those URLs |
| `StartProcess.NoMatchIffNoSelf` | pkg/etcd/etcdserver.go:313-317 | no member is collected if and only if no position carries the local client URLs |
| `StartProcess.SeveralIffManyMatches` | pkg/etcd/etcdserver.go:305-309 | two or more members are collected if and only if two distinct positions carry the local client URLs |
| `StartProcess.ResolveSelf` | pkg/etcd/etcdserver.go:303-317 | resolving self returns the unique matching member whenever there is one; it fails with SelfNotInCluster exactly when none matches and with MultipleSelf exactly when two match |
| `StartProcess.StartEtcdProcess` | pkg/etcd/etcdserver.go:298-345 | a start succeeds exactly when the state has a cluster, the local member is unique, the node has a client URL and the start succeeds; the process then runs that cluster with that unique `me`, the data directory baseDir/data/token, the first client URL and CreateNewCluster equal to the state's NewCluster; it fails with SelfNotInCluster exactly when the cluster has no matching member, with MultipleSelf exactly when two positions match, and with the no-client-URL panic when the match is unique but the node has no client URL |
| `StartProcess.DataDir` | pkg/etcd/etcdserver.go:299 | the data directory is baseDir/data/token, with an empty base directory or token left out as `filepath.Join` leaves out empty elements (no cleaning) |
| `EtcdServer.NewEtcdServer` | pkg/etcd/etcdserver.go:42-52 | a new server has nothing loaded, nothing prepared and no process |
| `EtcdServer.GetInfo` | pkg/etcd/etcdserver.go:134-150 | reports the cluster name and local node, and says the node is configured exactly when a state with a cluster is loaded, giving that cluster's token |
| `EtcdServer.DropExpired` | pkg/etcd/etcdserver.go:168-171 | after lazy expiry a reservation remains exactly when one existed and `now` is not after its end |
| `EtcdServer.Prepare` | pkg/etcd/etcdserver.go:176-188 | PREPARE succeeds exactly when no process is live and no reservation remains; it then reserves the token until now plus one minute and leaves state, process and disk untouched; a refusal changes nothing |
| `EtcdServer.CommitRefusal` | pkg/etcd/etcdserver.go:191-200 | the commit checks pass exactly when no process is live and a reservation for the request's token exists; otherwise they give "already running", "not prepared" or the token mismatch, in that order |
| `EtcdServer.CommitInitialCluster` | pkg/etcd/etcdserver.go:190-223 | INITIAL_CLUSTER succeeds exactly when the checks pass, both writes succeed and the start succeeds; memory and disk then hold the request's cluster with NewCluster false, and etcd runs it in create mode; a failed write keeps the disk, a failed start returns the start's own error and leaves NewCluster true on disk with no process, and a failed second write reports WriteFailed and leaves the started etcd running, NewCluster false in memory and the disk still saying NewCluster true; the reservation is kept |
| `EtcdServer.CommitJoinExisting` | pkg/etcd/etcdserver.go:225-253 | JOIN_EXISTING succeeds exactly when the checks pass, the write succeeds and the start succeeds; memory and disk then hold the request's cluster with NewCluster false, and etcd runs it in join mode; once the write succeeded the disk holds the committed state; a failed start returns the start's own error; every failure past the checks leaves no process; the reservation is kept |
| `EtcdServer.JoinCluster` | pkg/etcd/etcdserver.go:153-260 | a wrong cluster name or stale leadership changes nothing; a successful commit implies no process was live and an unexpired reservation for the token existed; with no live process, a commit against an expired reservation fails "not prepared"; a refused commit changes only the expired reservation; a commit never clears the reservation beyond lazy expiry; PREPARE conflicts with an unexpired reservation, and one refused for a live process still drops an expired reservation; an unknown phase fails; an admitted PREPARE succeeds exactly when no process is live and no unexpired reservation remains; an admitted commit succeeds exactly when no process is live, an unexpired reservation for the token exists, the writes succeed and the start succeeds; a commit past its checks keeps the request's cluster in memory, and on disk once the first write succeeded; only a commit starts a process |
| `EtcdServer.DoBackup` | pkg/etcd/etcdserver.go:263-296 | a backup succeeds exactly when both guards pass, a process is live, storage and parameters are given, the store opens and the process replies; it returns that reply; the errors come in the source's order: cluster name, leadership, not running, storage, parameters, store unavailable, backup failure; the handler never changes the node |
| `EtcdServer.LoadState` | pkg/etcd/etcdserver.go:102-111 | the tick has no state and no error exactly when nothing is loaded and there is no state file; it has state st exactly when st is loaded, or nothing is loaded and the file holds st; it fails with a read or parse error exactly when nothing is loaded and the file is unreadable or undecodable |
| `EtcdServer.RunOnce` | pkg/etcd/etcdserver.go:98-131 | the tick reads the disk only while nothing is loaded, and a missing file gives no state and no error; a live, unexited process is kept, and nothing is started; a process that reported an exit is never kept; at most one process starts, and it is launched from the loaded state; a successful tick leaves etcd running whenever state is loaded; with state at hand and no live process (none, or one that exited), it starts etcd from that state, succeeding exactly when the start does and otherwise reporting the start's own error with no process left; reservation and disk are never touched |
| `EtcdServer.StopEtcdProcess` | pkg/etcd/etcdserver.go:348-363 | reports true exactly when a process was there; there is no error exactly when there was no process or the stop succeeded, and then no process remains; a failed stop reports true with StopFailed and changes nothing |
| `Safety.NextPreservesInv` | pkg/etcd/etcdserver.go:98-363 | every handler preserves the invariant that a live process runs the in-memory cluster with a uniquely resolved local member |
| `Safety.RunPreservesInv` | pkg/etcd/etcdserver.go:98-363 | any sequence of calls from a node satisfying the invariant keeps it |
| `Safety.NoStartWithoutUniqueSelf` | pkg/etcd/etcdserver.go:303-342 | from a fresh node and for any calls and oracle answers, a live process has exactly one member with the node's client URLs, and it is the process's `me` |
| `Safety.RunKeepsConfig` | pkg/etcd/etcdserver.go:22-27 | no call changes the node's base directory, cluster name or local node |
| `Safety.GuardsLeaveNodeUnchanged` | pkg/etcd/etcdserver.go:157-166 | a join or backup request for another cluster, or without current leadership, fails and leaves the node exactly as it was |
| `Safety.QuietTicksIdempotent` | pkg/etcd/etcdserver.go:113-128 | with state loaded and a live process that reports no exit, any number of ticks changes nothing and starts nothing |
| `Safety.RestartRecovery` | pkg/etcd/etcdserver.go:98-131 | a node that has only a state file starts exactly one etcd on its first tick, configured from that file, when the local member resolves and the start succeeds |
| `Safety.CommitSurvivesReboot` | pkg/etcd/etcdserver.go:219-223 | after a successful commit and a loss of memory, the first tick whose start succeeds restarts etcd on the committed cluster in join mode, never re-initialising it |
| `Safety.FailedInitialStartResumes` | pkg/etcd/etcdserver.go:211-217 | when INITIAL_CLUSTER wrote its state but the start failed, the next tick whose start succeeds starts etcd from that state, still in create mode |
| `Safety.ExitedProcessRestarted` | pkg/etcd/etcdserver.go:113-128 | a live process that reports an exit is replaced on the same tick by exactly one etcd launched from the in-memory state when the start succeeds; otherwise the tick reports StartFailed and leaves no process; the state is unchanged |
| `Safety.InfoReflectsCommit` | pkg/etcd/etcdserver.go:140-145 | after a successful commit GetInfo reports the node configured with the request's token |
| `Safety.TickIgnoresDiskOnceLoaded` | pkg/etcd/etcdserver.go:102-111 | once state is loaded, the tick's outcome does not depend on the state file |
| `Scenarios.FormSingleNodeCluster` | pkg/etcd/etcdserver.go:176-223 | PREPARE then INITIAL_CLUSTER with the node alone succeed; memory and disk hold {token, [n], NewCluster false}, etcd runs in create mode with `me` = n, GetInfo reports the token, and a repeated INITIAL_CLUSTER fails "already running" |
| `Scenarios.ExpiredPrepareIsUnusable` | pkg/etcd/etcdserver.go:168-171 | JOIN_EXISTING after the prepare window has passed fails "not prepared" and starts nothing |
| `Scenarios.SecondPrepareConflicts` | pkg/etcd/etcdserver.go:181-183 | a second PREPARE inside the first one's window fails, naming the pending token, and changes nothing |
| `Scenarios.MismatchedCommitRefused` | pkg/etcd/etcdserver.go:198-200 | a commit for a token other than the prepared one fails with the token mismatch and changes nothing |
| `Scenarios.BackupNeedsRunningEtcd` | pkg/etcd/etcdserver.go:276-295 | DoBackup before any start fails "not running"; after a successful JOIN_EXISTING it returns the process's reply |
| `Scenarios.SelfResolutionFailures` | pkg/etcd/etcdserver.go:304-317 | a membership listing the local client URLs twice fails with MultipleSelf; one without them fails with SelfNotInCluster |

## Left out

- `pkg/etcdclient/v2.go`: an HTTP GET with a JSON decode of etcd's member list. It is network glue with no state.
- The mutex and the ten-second `contextutil.Forever` loop in `Run`. Each handler holds the lock for its whole body, so each is one transition. The loop is the environment calling `RunOnce` repeatedly. Its errors are only logged.
- Protobuf encoding and file I/O in `readState` / `writeState`. The file is the `Disk` slot. A failed write leaves the slot unchanged. A torn, non-atomic write shows up only as the `Corrupt` value a node may start with.
- The internals of `etcdProcess` (`Start`, `Stop`, `ExitState`, `DoBackup`), `backup.NewStore` and `peerServer.IsLeader`. Their code is not part of this model, so their results are oracle arguments. The backup parameters and reply are opaque.
- `time.Now()`: JoinCluster reads the clock twice, at lines 168 and 186. The model uses one `now` for both reads.
- glog logging, the hard-coded etcd binary directory, and gRPC registration in `NewEtcdServer`.
- `StartProcess.DataDir`: joins the non-empty path elements with "/". It does not apply `filepath.Clean`, so paths with "..", "." or doubled separators are not normalised.
- Go panics: a nil cluster at line 299, and indexing an empty client URL list at line 320. In Go the panic ends the node process. The model instead returns `Panicked(...)` with the node as it was at the panic. A crash that loses memory is covered separately by `Safety.Reboot`.
- The identity of each `*etcdProcess` pointer. It is represented by the `launches` counter, which counts the processes a node has started.

=== FILE: persist.dfy ===
/** `readState` and `writeState`: the state file at `<baseDir>/state`, with
    the file contents abstracted to the `Disk` slot. */
module Persist {
  import opened Wrappers
  import opened EtcdTypes

  /** Loads the state file. A missing file is not an error: it yields no
      state. An unreadable or undecodable file is an error. */
  function ReadState(disk: Disk): (r: Result<Option<State>, Error>)
    ensures r == Success(None) <==> disk.NoStateFile?
    ensures forall st :: r == Success(Some(st)) <==> disk == StateFile(st)
    ensures r.Failure? ==> r.error in {ReadFailed, ParseFailed}
  {
    match disk
    case NoStateFile => Success(None)
    case StateFile(st) => Success(Some(st))
    case Unreadable => Failure(ReadFailed)
    case Corrupt => Failure(ParseFailed)
  }

  /** Overwrites the state file with `st`; `ok` is whether the write
      succeeded. On success the new disk contents are returned, and a later
      load gives back exactly `st`; on failure the caller keeps its disk. */
  function WriteState(st: State, ok: bool): (r: Result<Disk, Error>)
    ensures r.Success? <==> ok
    ensures r.Success? ==> ReadState(r.value) == Success(Some(st))
    ensures r.Failure? ==> r.error == WriteFailed
  {
    if ok then Success(StateFile(st)) else Failure(WriteFailed)
  }
}

=== FILE: safety.dfy ===
/** Safety and recovery properties of the node's state machine, stated over
    every handler at once: a live etcd process always runs the cluster held
    in memory with a uniquely resolved local member, reconciliation is
    idempotent, and the state file alone is enough to bring etcd back. */
module Safety {
  import opened Wrappers
  import opened EtcdTypes
  import opened Persist
  import opened StartProcess
  import opened EtcdServer

  /** One serialized call into the node, with the answers of the outside
      world for that call. */
  datatype Event =
    | Join(req: JoinRequest, now: nat, isLeader: bool, io: CommitIo)
    | Backup(breq: BackupRequest, leader: bool, storeOk: bool, reply: Option<BackupReply>)
    | Info
    | Tick(exit: ExitReport, startOk: bool)
    | Stop(stopOk: bool)

  /** The node after one event. GetInfo and DoBackup only read the node. */
  function Next(s: Server, e: Event): Server
  {
    match e
    case Join(req, now, isLeader, io) => JoinCluster(s, req, now, isLeader, io).next
    case Backup(_, _, _, _) => s
    case Info => s
    case Tick(exit, startOk) => RunOnce(s, exit, startOk).next
    case Stop(stopOk) => StopEtcdProcess(s, stopOk).next
  }

  /** The node after a sequence of events, in order. */
  function Run(s: Server, es: seq<Event>): Server
    decreases |es|
  {
    if |es| == 0 then s else Run(Next(s, es[0]), es[1..])
  }

  /** A live process runs the in-memory cluster: same token and members, its
      data directory, and a uniquely resolved local member. */
  ghost predicate Inv(s: Server) {
    s.process.Some? ==>
      && s.state.Some?
      && s.state.value.cluster.Some?
      && RunsCluster(s.cfg, s.process.value, s.state.value.cluster.value)
  }

  lemma InitSatisfiesInv(cfg: Config, disk: Disk)
    ensures Inv(NewEtcdServer(cfg, disk))
  {
  }

  lemma NextPreservesInv(s: Server, e: Event)
    requires Inv(s)
    ensures Inv(Next(s, e))
  {
  }

  /** Every node reached from a node satisfying the invariant satisfies it:
      no sequence of calls gets a process running without a unique local
      member of the cluster held in memory. */
  lemma {:induction false} RunPreservesInv(s: Server, es: seq<Event>)
    requires Inv(s)
    ensures Inv(Run(s, es))
    decreases |es|
  {
    if |es| > 0 {
      NextPreservesInv(s, es[0]);
      RunPreservesInv(Next(s, es[0]), es[1..]);
    }
  }

  /** From a newly constructed node, whatever the calls and the answers of
      the outside world, a live process has exactly one cluster member
      matching the node's client URLs, and it is the process's `me`. */
  lemma NoStartWithoutUniqueSelf(cfg: Config, disk: Disk, es: seq<Event>)
    ensures var s := Run(NewEtcdServer(cfg, disk), es);
      s.process.Some? ==>
        && s.state.Some? && s.state.value.cluster.Some?
        && UniqueSelf(s.state.value.cluster.value.nodes, cfg.self.clientUrls, s.process.value.cluster.me)
  {
    InitSatisfiesInv(cfg, disk);
    RunPreservesInv(NewEtcdServer(cfg, disk), es);
    RunKeepsConfig(NewEtcdServer(cfg, disk), es);
  }

  lemma {:induction false} RunKeepsConfig(s: Server, es: seq<Event>)
    ensures Run(s, es).cfg == s.cfg
    decreases |es|
  {
    if |es| > 0 {
      RunKeepsConfig(Next(s, es[0]), es[1..]);
    }
  }

  /** A request for another cluster or without a current leadership token
      leaves the node exactly as it was. */
  lemma GuardsLeaveNodeUnchanged(s: Server, e: Event)
    requires e.Join? || e.Backup?
    requires e.Join? ==> !Admitted(s.cfg, e.req.clusterName, e.isLeader)
    requires e.Backup? ==> !Admitted(s.cfg, e.breq.clusterName, e.leader)
    ensures Next(s, e) == s
    ensures e.Join? ==> JoinCluster(s, e.req, e.now, e.isLeader, e.io).result.Failure?
    ensures e.Backup? ==> DoBackup(s, e.breq, e.leader, e.storeOk, e.reply).Failure?
  {
  }

  /** `n` reconciliation ticks in which the process reports no exit. */
  function QuietTicks(s: Server, n: nat, startOk: bool): Server
    decreases n
  {
    if n == 0 then s else QuietTicks(RunOnce(s, ExitReport(false, false), startOk).next, n - 1, startOk)
  }

  /** Reconciliation is idempotent: with state loaded and a live process
      that has not exited, any number of ticks starts nothing and changes
      nothing. */
  lemma {:induction false} QuietTicksIdempotent(s: Server, n: nat, startOk: bool)
    requires s.state.Some? && s.process.Some?
    ensures QuietTicks(s, n, startOk) == s
    decreases n
  {
    if n > 0 {
      assert RunOnce(s, ExitReport(false, false), startOk).next == s;
      QuietTicksIdempotent(s, n - 1, startOk);
    }
  }

  /** Restart recovery: a node that finds only a state file (nothing
      loaded, nothing prepared, no process) starts exactly one etcd on its
      first tick, configured from that file, provided the file's cluster
      resolves the local member and the start succeeds. */
  lemma RestartRecovery(cfg: Config, st: State, exit: ExitReport)
    requires st.cluster.Some?
    requires exists me :: UniqueSelf(st.cluster.value.nodes, cfg.self.clientUrls, me)
    requires |cfg.self.clientUrls| > 0
    ensures var out := RunOnce(NewEtcdServer(cfg, StateFile(st)), exit, true);
      && out.result.Success?
      && out.next.state == Some(st)
      && out.next.launches == 1
      && out.next.process.Some?
      && LaunchedFrom(cfg, st, out.next.process.value)
  {
  }

  /** A node rebooted: memory is lost, the state file survives. */
  function Reboot(s: Server): (s': Server)
    ensures s'.cfg == s.cfg && s'.disk == s.disk
    ensures s'.state.None? && s'.prepared.None? && s'.process.None?
  {
    NewEtcdServer(s.cfg, s.disk)
  }

  /** A successful commit survives a reboot: the first tick afterwards
      restarts etcd on the committed cluster and in join mode, never
      re-initialising the cluster, whichever commit phase was used. */
  lemma CommitSurvivesReboot(s: Server, req: JoinRequest, now: nat, isLeader: bool, io: CommitIo, exit: ExitReport)
    requires IsCommit(req.phase)
    requires JoinCluster(s, req, now, isLeader, io).result.Success?
    ensures var out := RunOnce(Reboot(JoinCluster(s, req, now, isLeader, io).next), exit, true);
      && out.result.Success?
      && out.next.process.Some?
      && LaunchedFrom(s.cfg, CommitState(req, false), out.next.process.value)
      && !out.next.process.value.createNewCluster
  {
  }

  /** The partial-failure window of INITIAL_CLUSTER is resumable: when the
      state was written but etcd failed to start, the next tick that can
      start etcd does so from the written state, still in create-new mode. */
  lemma FailedInitialStartResumes(s: Server, req: JoinRequest, now: nat, isLeader: bool, rewriteOk: bool, exit: ExitReport)
    requires req.phase.PhaseInitialCluster?
    requires JoinCluster(s, req, now, isLeader, CommitIo(true, false, rewriteOk)).result == Failure(StartFailed)
    ensures var failed := JoinCluster(s, req, now, isLeader, CommitIo(true, false, rewriteOk)).next;
      && failed.process.None?
      && failed.state == Some(CommitState(req, true))
      && failed.disk == StateFile(CommitState(req, true))
      && var out := RunOnce(failed, exit, true);
        && out.result.Success?
        && out.next.launches == failed.launches + 1
        && LaunchedFrom(s.cfg, CommitState(req, true), out.next.process.value)
        && out.next.process.value.createNewCluster
  {
  }

  /** After a successful commit GetInfo reports the cluster as configured,
      under the request's formation token. */
  lemma InfoReflectsCommit(s: Server, req: JoinRequest, now: nat, isLeader: bool, io: CommitIo)
    requires IsCommit(req.phase)
    requires JoinCluster(s, req, now, isLeader, io).result.Success?
    ensures var info := GetInfo(JoinCluster(s, req, now, isLeader, io).next);
      && info.etcdConfigured
      && info.clusterToken == req.clusterToken
      && info.clusterName == s.cfg.clusterName
  {
  }

  /** Once state is loaded, the tick behaves the same whatever the state
      file now holds: the disk is read only while nothing is loaded. */
  lemma TickIgnoresDiskOnceLoaded(s: Server, disk: Disk, exit: ExitReport, startOk: bool)
    requires s.state.Some?
    ensures RunOnce(s.(disk := disk), exit, startOk).result == RunOnce(s, exit, startOk).result
    ensures RunOnce(s.(disk := disk), exit, startOk).next == RunOnce(s, exit, startOk).next.(disk := disk)
  {
  }

  /** Crash restart: a live process that reports an exit is replaced on the
      same tick by exactly one new etcd launched from the in-memory state,
      when the start succeeds; when it fails the tick reports the start's
      error and leaves no process. The state is never changed. */
  lemma ExitedProcessRestarted(s: Server, exit: ExitReport, startOk: bool)
    requires Inv(s)
    requires s.process.Some? && exit.Exited()
    ensures var out := RunOnce(s, exit, startOk);
      && out.next.state == s.state
      && (startOk ==>
        && out.result.Success?
        && out.next.launches == s.launches + 1
        && out.next.process.Some?
        && LaunchedFrom(s.cfg, s.state.value, out.next.process.value))
      && (!startOk ==> out.result == Failure(StartFailed) && out.next.process.None?)
  {
  }
}

=== FILE: scenarios.dfy ===
/** The worked scenarios of the cluster-formation protocol, proved for every
    node, base directory, time and formation token. */
module Scenarios {
  import opened Wrappers
  import opened EtcdTypes
  import opened StartProcess
  import opened EtcdServer

  const AllOk := CommitIo(true, true, true)

  function Req(token: string, phase: Phase, nodes: seq<Node>): JoinRequest {
    JoinRequest("prod", "leader", token, phase, nodes)
  }

  /** Node `n` of cluster "prod", without state: PREPARE then INITIAL_CLUSTER
      with itself as the only member succeed, leave the state {token, [n],
      NewCluster false} in memory and on disk with etcd started in create
      mode, GetInfo then reports the token, and a repeated INITIAL_CLUSTER is
      refused because etcd is running. */
  lemma FormSingleNodeCluster(baseDir: string, n: Node, token: string, t0: nat, t1: nat)
    requires |n.clientUrls| > 0
    requires t0 <= t1 <= t0 + PreparedValidity
    ensures var s0 := NewEtcdServer(Config(baseDir, "prod", n), NoStateFile);
      var p := JoinCluster(s0, Req(token, PhasePrepare, []), t0, true, AllOk);
      var c := JoinCluster(p.next, Req(token, PhaseInitialCluster, [n]), t1, true, AllOk);
      var again := JoinCluster(c.next, Req(token, PhaseInitialCluster, [n]), t1, true, AllOk);
      && p.result.Success?
      && c.result.Success?
      && c.next.state == Some(State(Some(Cluster(token, [n])), false))
      && c.next.disk == StateFile(State(Some(Cluster(token, [n])), false))
      && c.next.process.Some? && c.next.process.value.createNewCluster
      && c.next.process.value.cluster.me == n
      && GetInfo(c.next).etcdConfigured && GetInfo(c.next).clusterToken == token
      && again.result == Failure(ProcessAlreadyRunning)
      && again.next.state == c.next.state && again.next.process == c.next.process
  {
  }

  /** A reservation that has run out cannot be committed: PREPARE at `t0`
      then JOIN_EXISTING after the validity window fails with NotPrepared
      and starts nothing. */
  lemma ExpiredPrepareIsUnusable(cfg: Config, token: string, nodes: seq<Node>, t0: nat, t1: nat, io: CommitIo)
    requires cfg.clusterName == "prod"
    requires t1 > t0 + PreparedValidity
    ensures var s0 := NewEtcdServer(cfg, NoStateFile);
      var p := JoinCluster(s0, Req(token, PhasePrepare, []), t0, true, io);
      var j := JoinCluster(p.next, Req(token, PhaseJoinExisting, nodes), t1, true, io);
      && p.result.Success?
      && j.result == Failure(NotPrepared)
      && j.next.prepared.None? && j.next.process.None? && j.next.state.None?
  {
  }

  /** Only one reservation at a time: a second PREPARE inside the first
      one's window fails naming the pending token, and keeps it. */
  lemma SecondPrepareConflicts(cfg: Config, first: string, second: string, t0: nat, t1: nat, io: CommitIo)
    requires cfg.clusterName == "prod"
    requires t0 <= t1 <= t0 + PreparedValidity
    ensures var s0 := NewEtcdServer(cfg, NoStateFile);
      var p := JoinCluster(s0, Req(first, PhasePrepare, []), t0, true, io);
      var q := JoinCluster(p.next, Req(second, PhasePrepare, []), t1, true, io);
      && q.result == Failure(ConcurrentPrepare(first))
      && q.next == p.next
  {
  }

  /** A commit for another formation attempt's token is refused and changes
      neither the state, the process nor the pending reservation. */
  lemma MismatchedCommitRefused(cfg: Config, prepared: string, other: string, nodes: seq<Node>, t0: nat, t1: nat, io: CommitIo)
    requires cfg.clusterName == "prod"
    requires prepared != other
    requires t0 <= t1 <= t0 + PreparedValidity
    ensures var s0 := NewEtcdServer(cfg, NoStateFile);
      var p := JoinCluster(s0, Req(prepared, PhasePrepare, []), t0, true, io);
      var c := JoinCluster(p.next, Req(other, PhaseInitialCluster, nodes), t1, true, io);
      && c.result == Failure(TokenMismatch(other, prepared))
      && c.next == p.next
  {
  }

  /** DoBackup before any etcd is started fails with NotRunning; after a
      successful JOIN_EXISTING, a backup with a storage locator and
      parameters returns the reply of the etcd process. */
  lemma BackupNeedsRunningEtcd(baseDir: string, n: Node, token: string, t0: nat, t1: nat, reply: BackupReply)
    requires |n.clientUrls| > 0
    requires t0 <= t1 <= t0 + PreparedValidity
    ensures var s0 := NewEtcdServer(Config(baseDir, "prod", n), NoStateFile);
      var breq := BackupRequest("prod", "leader", "s3://bucket/backups", Some("params"));
      var p := JoinCluster(s0, Req(token, PhasePrepare, []), t0, true, AllOk);
      var j := JoinCluster(p.next, Req(token, PhaseJoinExisting, [n]), t1, true, AllOk);
      && DoBackup(s0, breq, true, true, Some(reply)) == Failure(NotRunning)
      && j.result.Success?
      && !j.next.process.value.createNewCluster
      && DoBackup(j.next, breq, true, true, Some(reply)) == Success(reply)
  {
  }

  /** A membership listing the local client URLs twice cannot be started,
      and one that omits them cannot either; in both cases nothing runs. */
  lemma SelfResolutionFailures(baseDir: string, n: Node, other: Node, token: string)
    requires other.clientUrls != n.clientUrls
    ensures var cfg := Config(baseDir, "prod", n);
      && StartEtcdProcess(cfg, State(Some(Cluster(token, [n, other, n])), false), true) == Failure(MultipleSelf)
      && StartEtcdProcess(cfg, State(Some(Cluster(token, [other])), true), true) == Failure(SelfNotInCluster)
  {
  }
}

=== FILE: server.dfy ===
/** The handlers of `EtcdServer`. Each holds the node's mutex for its whole
    body, so each is one atomic transition from a `Server` to the next. The
    outside world enters as explicit oracle arguments: the current time, the
    leadership check, and whether each disk write, process start, process
    stop and backup call succeeded. */
module EtcdServer {
  import opened Wrappers
  import opened EtcdTypes
  import opened Persist
  import opened StartProcess

  /** Whether each outside call made by a commit phase succeeds: the first
      state write, the process start, and (INITIAL_CLUSTER only) the write
      that clears the NewCluster flag. */
  datatype CommitIo = CommitIo(writeOk: bool, startOk: bool, rewriteOk: bool)

  /** A freshly constructed server: nothing loaded, nothing prepared, no
      process; only the disk may already hold a state file. */
  function NewEtcdServer(cfg: Config, disk: Disk): (s: Server)
    ensures s.cfg == cfg && s.disk == disk
    ensures s.state.None? && s.prepared.None? && s.process.None? && s.launches == 0
  {
    Server(cfg, None, None, None, disk, 0)
  }

  /** Records a newly started process. */
  function Launch(s: Server, p: Process): (s': Server)
    ensures s'.process == Some(p) && s'.launches == s.launches + 1
    ensures s'.cfg == s.cfg && s'.state == s.state && s'.prepared == s.prepared && s'.disk == s.disk
  {
    s.(process := Some(p), launches := s.launches + 1)
  }

  /** The request names this node's cluster and carries a current
      leadership token. */
  predicate Admitted(cfg: Config, clusterName: string, isLeader: bool) {
    clusterName == cfg.clusterName && isLeader
  }

  /** `p` holds an unexpired reservation for `token` at time `now`. */
  predicate Reserved(p: Option<Prepared>, token: string, now: nat) {
    p.Some? && p.value.token == token && !Expired(p.value, now)
  }

  predicate IsCommit(phase: Phase) {
    phase.PhaseInitialCluster? || phase.PhaseJoinExisting?
  }

  /** The lazy expiry step: an expired reservation is dropped, a live one kept. */
  function DropExpired(p: Option<Prepared>, now: nat): (r: Option<Prepared>)
    ensures r.Some? <==> p.Some? && !Expired(p.value, now)
    ensures r.Some? ==> r == p
  {
    if p.Some? && Expired(p.value, now) then None else p
  }

  /** The state a commit phase writes first: the request's cluster, with the
      NewCluster flag as given. */
  function CommitState(req: JoinRequest, newCluster: bool): (st: State)
    ensures st.cluster == Some(Cluster(req.clusterToken, req.nodes))
    ensures st.newCluster == newCluster
  {
    State(Some(Cluster(req.clusterToken, req.nodes)), newCluster)
  }

  /** After a successful commit of `req`: memory and disk both hold the
      request's cluster with NewCluster false, and a process runs that was
      launched from that cluster in create-new mode exactly when `created`. */
  ghost predicate Committed(s: Server, req: JoinRequest, created: bool) {
    && s.state == Some(CommitState(req, false))
    && s.disk == StateFile(CommitState(req, false))
    && s.process.Some?
    && LaunchedFrom(s.cfg, CommitState(req, created), s.process.value)
  }

  /** GetInfo: the cluster name, the local node, and the token of the
      configured cluster when there is one (the empty string otherwise). */
  function GetInfo(s: Server): (r: InfoResponse)
    ensures r.clusterName == s.cfg.clusterName
    ensures r.nodeConfiguration == s.cfg.self
    ensures r.etcdConfigured <==> s.state.Some? && s.state.value.cluster.Some?
    ensures r.etcdConfigured ==> r.clusterToken == s.state.value.cluster.value.token
    ensures !r.etcdConfigured ==> r.clusterToken == ""
  {
    match s.state
    case Some(State(Some(c), _)) => InfoResponse(s.cfg.clusterName, true, c.token, s.cfg.self)
    case _ => InfoResponse(s.cfg.clusterName, false, "", s.cfg.self)
  }

  /** The PREPARE phase, run after lazy expiry: refused while a process is
      live or a reservation is pending; otherwise it reserves the node for
      `token` until one validity window after `now`, touching nothing else. */
  function Prepare(s: Server, token: string, now: nat): (out: Step<()>)
    ensures out.result.Success? <==> s.process.None? && s.prepared.None?
    ensures s.process.Some? ==> out.result == Failure(ProcessAlreadyRunning)
    ensures s.process.None? && s.prepared.Some? ==> out.result == Failure(ConcurrentPrepare(s.prepared.value.token))
    ensures out.result.Failure? ==> out.next == s
    ensures out.result.Success? ==>
      && out.next.prepared == Some(Prepared(token, now + PreparedValidity))
      && Reserved(out.next.prepared, token, now)
      && !Reserved(out.next.prepared, token, now + PreparedValidity + 1)
    ensures out.next.state == s.state && out.next.process == s.process && out.next.disk == s.disk
    ensures out.next.cfg == s.cfg
  {
    if s.process.Some? then Step(Failure(ProcessAlreadyRunning), s)
    else if s.prepared.Some? then Step(Failure(ConcurrentPrepare(s.prepared.value.token)), s)
    else Step(Success(()), s.(prepared := Some(Prepared(token, now + PreparedValidity))))
  }

  /** The checks both commit phases make, in order: no live process, a
      reservation, and a reservation for the request's token. */
  function CommitRefusal(s: Server, token: string): (r: Option<Error>)
    ensures r.None? <==> s.process.None? && s.prepared.Some? && s.prepared.value.token == token
    ensures s.process.Some? ==> r == Some(ProcessAlreadyRunning)
    ensures s.process.None? && s.prepared.None? ==> r == Some(NotPrepared)
    ensures s.process.None? && s.prepared.Some? && s.prepared.value.token != token ==>
      r == Some(TokenMismatch(token, s.prepared.value.token))
  {
    if s.process.Some? then Some(ProcessAlreadyRunning)
    else if s.prepared.None? then Some(NotPrepared)
    else if s.prepared.value.token != token then Some(TokenMismatch(token, s.prepared.value.token))
    else None
  }

  /** The INITIAL_CLUSTER phase, run after lazy expiry. Past the checks it
      records the request's cluster with NewCluster true in memory, writes it,
      starts etcd in create-new mode, then clears the flag and writes again.
      Each step can fail and leaves what the earlier steps did in place. The
      reservation is never cleared here. */
  function CommitInitialCluster(s: Server, req: JoinRequest, io: CommitIo): (out: Step<()>)
    ensures out.next.cfg == s.cfg && out.next.prepared == s.prepared
    ensures CommitRefusal(s, req.clusterToken).Some? ==>
      out == Step(Failure(CommitRefusal(s, req.clusterToken).value), s)
    ensures out.result.Success? <==>
      && CommitRefusal(s, req.clusterToken).None?
      && io.writeOk && io.rewriteOk
      && StartEtcdProcess(s.cfg, CommitState(req, true), io.startOk).Success?
    ensures out.result.Success? ==> Committed(out.next, req, true)
    ensures CommitRefusal(s, req.clusterToken).None? && !io.writeOk ==>
      && out.result == Failure(WriteFailed)
      && out.next == s.(state := Some(CommitState(req, true)))
    ensures CommitRefusal(s, req.clusterToken).None? && io.writeOk && out.next.process.None? ==>
      && out.result.Failure?
      && out.next.state == Some(CommitState(req, true))
      && out.next.disk == StateFile(CommitState(req, true))
    ensures out.next.launches == (if out.next.process.Some? && s.process.None? then s.launches + 1 else s.launches)
    ensures (CommitRefusal(s, req.clusterToken).None? && io.writeOk
             && StartEtcdProcess(s.cfg, CommitState(req, true), io.startOk).Failure?) ==>
      out.result == Failure(StartEtcdProcess(s.cfg, CommitState(req, true), io.startOk).error)
    // a failed second write leaves etcd running, NewCluster false in memory and true on disk
    ensures (CommitRefusal(s, req.clusterToken).None? && io.writeOk && !io.rewriteOk
             && StartEtcdProcess(s.cfg, CommitState(req, true), io.startOk).Success?) ==>
      && out.result == Failure(WriteFailed)
      && out.next.process == Some(StartEtcdProcess(s.cfg, CommitState(req, true), io.startOk).value)
      && out.next.state == Some(CommitState(req, false))
      && out.next.disk == StateFile(CommitState(req, true))
    ensures s.process.None? && out.next.process.Some? && out.result.Failure? ==>
      && out.result == Failure(WriteFailed)
      && out.next.state == Some(CommitState(req, false))
      && out.next.disk == StateFile(CommitState(req, true))
      && LaunchedFrom(s.cfg, CommitState(req, true), out.next.process.value)
  {
    var refusal := CommitRefusal(s, req.clusterToken);
    if refusal.Some? then Step(Failure(refusal.value), s)
    else
      var st := CommitState(req, true);
      var s1 := s.(state := Some(st));
      match WriteState(st, io.writeOk)
      case Failure(e) => Step(Failure(e), s1)
      case Success(disk) =>
        var s2 := s1.(disk := disk);
        match StartEtcdProcess(s2.cfg, st, io.startOk)
        case Failure(e) => Step(Failure(e), s2)
        case Success(p) =>
          var st' := st.(newCluster := false);
          var s3 := Launch(s2.(state := Some(st')), p);
          match WriteState(st', io.rewriteOk)
          case Failure(e) => Step(Failure(e), s3)
          case Success(disk') => Step(Success(()), s3.(disk := disk'))
  }

  /** The JOIN_EXISTING phase, run after lazy expiry. Past the checks it
      records the request's cluster with NewCluster false in memory, writes
      it, and starts etcd in join mode. The reservation is never cleared. */
  function CommitJoinExisting(s: Server, req: JoinRequest, io: CommitIo): (out: Step<()>)
    ensures out.next.cfg == s.cfg && out.next.prepared == s.prepared
    ensures CommitRefusal(s, req.clusterToken).Some? ==>
      out == Step(Failure(CommitRefusal(s, req.clusterToken).value), s)
    ensures out.result.Success? <==>
      && CommitRefusal(s, req.clusterToken).None?
      && io.writeOk
      && StartEtcdProcess(s.cfg, CommitState(req, false), io.startOk).Success?
    ensures out.result.Success? ==> Committed(out.next, req, false)
    ensures CommitRefusal(s, req.clusterToken).None? && !io.writeOk ==>
      && out.result == Failure(WriteFailed)
      && out.next == s.(state := Some(CommitState(req, false)))
    ensures CommitRefusal(s, req.clusterToken).None? && out.result.Failure? ==>
      && out.next.process.None?
      && out.next.state == Some(CommitState(req, false))
    ensures (CommitRefusal(s, req.clusterToken).None? && io.writeOk
             && StartEtcdProcess(s.cfg, CommitState(req, false), io.startOk).Failure?) ==>
      out.result == Failure(StartEtcdProcess(s.cfg, CommitState(req, false), io.startOk).error)
    // once the write succeeded the file holds the committed state, whatever the start does
    ensures CommitRefusal(s, req.clusterToken).None? && io.writeOk ==>
      out.next.disk == StateFile(CommitState(req, false))
    ensures out.next.launches == (if out.result.Success? then s.launches + 1 else s.launches)
  {
    var refusal := CommitRefusal(s, req.clusterToken);
    if refusal.Some? then Step(Failure(refusal.value), s)
    else
      var st := CommitState(req, false);
      var s1 := s.(state := Some(st));
      match WriteState(st, io.writeOk)
      case Failure(e) => Step(Failure(e), s1)
      case Success(disk) =>
        var s2 := s1.(disk := disk);
        match StartEtcdProcess(s2.cfg, st, io.startOk)
        case Failure(e) => Step(Failure(e), s2)
        case Success(p) => Step(Success(()), Launch(s2, p))
  }

  /** JoinCluster: the cluster-name and leadership guards, lazy expiry of the
      reservation, then dispatch on the phase. */
  function JoinCluster(s: Server, req: JoinRequest, now: nat, isLeader: bool, io: CommitIo): (out: Step<()>)
    ensures out.next.cfg == s.cfg
    ensures req.clusterName != s.cfg.clusterName ==> out == Step(Failure(ClusterNameMismatch), s)
    ensures req.clusterName == s.cfg.clusterName && !isLeader ==> out == Step(Failure(NotLeader), s)
    // no commit without a matching unexpired reservation and with no live process
    ensures out.result.Success? && IsCommit(req.phase) ==>
      && Admitted(s.cfg, req.clusterName, isLeader)
      && s.process.None?
      && Reserved(s.prepared, req.clusterToken, now)
    ensures out.result.Success? && req.phase.PhaseInitialCluster? ==> Committed(out.next, req, true)
    ensures out.result.Success? && req.phase.PhaseJoinExisting? ==> Committed(out.next, req, false)
    // an expired reservation cannot be committed against
    ensures (Admitted(s.cfg, req.clusterName, isLeader) && IsCommit(req.phase) && s.process.None?
             && s.prepared.Some? && Expired(s.prepared.value, now)) ==>
      out.result == Failure(NotPrepared)
    // a refused commit leaves the cluster state, the process and the disk alone
    ensures (Admitted(s.cfg, req.clusterName, isLeader) && IsCommit(req.phase)
             && !(s.process.None? && Reserved(s.prepared, req.clusterToken, now))) ==>
      && out.result.Failure?
      && out.next == s.(prepared := DropExpired(s.prepared, now))
    ensures req.phase.PhasePrepare? && out.result.Success? ==>
      && Admitted(s.cfg, req.clusterName, isLeader)
      && s.process.None?
      && (s.prepared.None? || Expired(s.prepared.value, now))
      && out.next == s.(prepared := Some(Prepared(req.clusterToken, now + PreparedValidity)))
    ensures (req.phase.PhasePrepare? && Admitted(s.cfg, req.clusterName, isLeader) && s.process.None?
             && s.prepared.Some? && !Expired(s.prepared.value, now)) ==>
      out == Step(Failure(ConcurrentPrepare(s.prepared.value.token)), s)
    ensures req.phase.OtherPhase? && Admitted(s.cfg, req.clusterName, isLeader) ==>
      out == Step(Failure(UnknownPhase), s.(prepared := DropExpired(s.prepared, now)))
    ensures req.phase.OtherPhase? ==> out.result.Failure?
    // when an admitted call succeeds
    ensures req.phase.PhasePrepare? ==>
      (out.result.Success? <==>
        Admitted(s.cfg, req.clusterName, isLeader) && s.process.None? && DropExpired(s.prepared, now).None?)
    ensures Admitted(s.cfg, req.clusterName, isLeader) && IsCommit(req.phase) ==>
      (out.result.Success? <==>
        && s.process.None?
        && Reserved(s.prepared, req.clusterToken, now)
        && io.writeOk
        && (req.phase.PhaseInitialCluster? ==> io.rewriteOk)
        && StartEtcdProcess(s.cfg, CommitState(req, req.phase.PhaseInitialCluster?), io.startOk).Success?)
    // a commit past its checks keeps the request's cluster in memory, and on disk once written
    ensures (Admitted(s.cfg, req.clusterName, isLeader) && IsCommit(req.phase) && s.process.None?
             && Reserved(s.prepared, req.clusterToken, now)) ==>
      && out.next.state.Some?
      && out.next.state.value.cluster == Some(Cluster(req.clusterToken, req.nodes))
      && (io.writeOk ==>
            out.next.disk.StateFile? && out.next.disk.record.cluster == Some(Cluster(req.clusterToken, req.nodes)))
    // a commit never clears the reservation; only lazy expiry drops it
    ensures Admitted(s.cfg, req.clusterName, isLeader) && IsCommit(req.phase) ==>
      out.next.prepared == DropExpired(s.prepared, now)
    // a PREPARE refused for a live process still drops an expired reservation
    ensures (req.phase.PhasePrepare? && Admitted(s.cfg, req.clusterName, isLeader) && s.process.Some?) ==>
      out == Step(Failure(ProcessAlreadyRunning), s.(prepared := DropExpired(s.prepared, now)))
    // only a commit starts a process, and it starts at most one
    ensures !IsCommit(req.phase) ==> out.next.launches == s.launches
    ensures out.next.launches == s.launches || out.next.launches == s.launches + 1
  {
    if req.clusterName != s.cfg.clusterName then Step(Failure(ClusterNameMismatch), s)
    else if !isLeader then Step(Failure(NotLeader), s)
    else
      var s1 := s.(prepared := DropExpired(s.prepared, now));
      match req.phase
      case PhasePrepare => Prepare(s1, req.clusterToken, now)
      case PhaseInitialCluster => CommitInitialCluster(s1, req, io)
      case PhaseJoinExisting => CommitJoinExisting(s1, req, io)
      case OtherPhase(_) => Step(Failure(UnknownPhase), s1)
  }

  /** DoBackup: the same two guards, then a live process, a storage locator
      and backup parameters, checked in that order; then the backup store is
      opened and the process asked for a backup, whose reply is returned.
      The handler reads the node and never changes it, so it returns only its
      result. */
  function DoBackup(s: Server, req: BackupRequest, isLeader: bool, storeOk: bool, reply: Option<BackupReply>)
    : (r: Result<BackupReply, Error>)
    ensures r.Success? <==>
      && Admitted(s.cfg, req.clusterName, isLeader)
      && s.process.Some? && req.storage != "" && req.params.Some?
      && storeOk && reply.Some?
    ensures r.Success? ==> r.value == reply.value
    ensures req.clusterName != s.cfg.clusterName ==> r == Failure(ClusterNameMismatch)
    ensures req.clusterName == s.cfg.clusterName && !isLeader ==> r == Failure(NotLeader)
    ensures Admitted(s.cfg, req.clusterName, isLeader) && s.process.None? ==> r == Failure(NotRunning)
    ensures Admitted(s.cfg, req.clusterName, isLeader) && s.process.Some? && req.storage == "" ==>
      r == Failure(StorageRequired)
    ensures (Admitted(s.cfg, req.clusterName, isLeader) && s.process.Some? && req.storage != ""
             && req.params.None?) ==> r == Failure(StateRequired)
    ensures (Admitted(s.cfg, req.clusterName, isLeader) && s.process.Some? && req.storage != ""
             && req.params.Some? && !storeOk) ==> r == Failure(StoreUnavailable)
    ensures (Admitted(s.cfg, req.clusterName, isLeader) && s.process.Some? && req.storage != ""
             && req.params.Some? && storeOk && reply.None?) ==> r == Failure(BackupFailed)
  {
    if s.cfg.clusterName != req.clusterName then Failure(ClusterNameMismatch)
    else if !isLeader then Failure(NotLeader)
    else if s.process.None? then Failure(NotRunning)
    else if req.storage == "" then Failure(StorageRequired)
    else if req.params.None? then Failure(StateRequired)
    else if !storeOk then Failure(StoreUnavailable)
    else if reply.None? then Failure(BackupFailed)
    else Success(reply.value)
  }

  /** The state the tick works from: the in-memory state, or the state file
      when nothing is loaded yet. The disk matters only while nothing is
      loaded; a missing file is then no state and no error. */
  function LoadState(s: Server): (r: Result<Option<State>, Error>)
    ensures r == Success(None) <==> s.state.None? && s.disk.NoStateFile?
    ensures forall st :: r == Success(Some(st)) <==>
      s.state == Some(st) || (s.state.None? && s.disk == StateFile(st))
    ensures r.Failure? <==> s.state.None? && (s.disk.Unreadable? || s.disk.Corrupt?)
    ensures r.Failure? ==> r.error == (if s.disk.Unreadable? then ReadFailed else ParseFailed)
  {
    if s.state.Some? then Success(s.state) else ReadState(s.disk)
  }

  /** One reconciliation tick (`runOnce`): load the state file while nothing
      is loaded, forget a process that reports an exit, and start etcd from
      the state when there is state and no process. `exit` is what the live
      process reports; `startOk` is whether a start succeeds. */
  function RunOnce(s: Server, exit: ExitReport, startOk: bool): (out: Step<()>)
    ensures out.next.cfg == s.cfg && out.next.prepared == s.prepared && out.next.disk == s.disk
    // the disk is consulted only while nothing is loaded
    ensures s.state.Some? ==> out.next.state == s.state
    ensures s.state.None? && ReadState(s.disk).Failure? ==> out == Step(Failure(ReadState(s.disk).error), s)
    ensures s.state.None? && s.disk.NoStateFile? ==> out.next.state.None? && out.result.Success?
    ensures s.state.None? && s.disk.StateFile? ==> out.next.state == Some(s.disk.record)
    // a live process that has not exited is kept, and no second one started
    ensures s.process.Some? && !exit.Exited() ==>
      out.next.process == s.process && out.next.launches == s.launches
    ensures s.process.Some? && !exit.Exited() && s.state.Some? ==> out == Step(Success(()), s)
    // at most one start per tick, launched from the loaded state
    ensures out.next.launches == s.launches || out.next.launches == s.launches + 1
    ensures out.next.launches == s.launches + 1 ==>
      && out.result.Success?
      && out.next.state.Some? && out.next.process.Some?
      && LaunchedFrom(s.cfg, out.next.state.value, out.next.process.value)
    ensures out.next.launches == s.launches ==> out.next.process == s.process || out.next.process.None?
    // a process that reported an exit is never kept
    ensures s.process.Some? && exit.Exited() && LoadState(s).Success? ==>
      out.next.process.None? || out.next.launches == s.launches + 1
    // a successful tick leaves a process running whenever there is state
    ensures out.result.Success? && out.next.state.Some? ==> out.next.process.Some?
    // with state at hand and no live process (none, or one that exited), the
    // tick starts etcd from that state and reports the start's own error
    ensures (LoadState(s).Success? && LoadState(s).value.Some? && (s.process.None? || exit.Exited())) ==>
      var start := StartEtcdProcess(s.cfg, LoadState(s).value.value, startOk);
      && (out.result.Success? <==> start.Success?)
      && (start.Failure? ==> out.result == Failure(start.error) && out.next.process.None?)
      && (start.Success? ==> out.next.process == Some(start.value) && out.next.launches == s.launches + 1)
  {
    match LoadState(s)
    case Failure(e) => Step(Failure(e), s)
    case Success(loaded) =>
      var s1 := s.(state := loaded);
      var s2 := if s1.process.Some? && exit.Exited() then s1.(process := None) else s1;
      if s2.state.Some? && s2.process.None? then
        match StartEtcdProcess(s2.cfg, s2.state.value, startOk)
        case Failure(e) => Step(Failure(e), s2)
        case Success(p) => Step(Success(()), Launch(s2, p))
      else Step(Success(()), s2)
  }

  /** What `StopEtcdProcess` returns: whether a process was there, the stop
      error if any, and the node afterwards. */
  datatype StopStep = StopStep(wasRunning: bool, err: Option<Error>, next: Server)

  /** StopEtcdProcess: with no process it reports false and no error;
      otherwise it reports true and stops the process (`stopOk` is whether
      `Stop` succeeded), forgetting it only when the stop succeeded. */
  function StopEtcdProcess(s: Server, stopOk: bool): (out: StopStep)
    ensures out.next.cfg == s.cfg && out.next.state == s.state && out.next.prepared == s.prepared
    ensures out.next.disk == s.disk && out.next.launches == s.launches
    ensures out.wasRunning <==> s.process.Some?
    ensures out.err.None? <==> s.process.None? || stopOk
    ensures out.err.None? ==> out.next.process.None?
    ensures out.err.Some? ==> out.err == Some(StopFailed) && out.next == s
  {
    if s.process.None? then StopStep(false, None, s)
    else if !stopOk then StopStep(true, Some(StopFailed), s)
    else StopStep(true, None, s.(process := None))
  }
}

=== FILE: startprocess.dfy ===
/** `startEtcdProcess` and `stringSlicesEqual`: resolving the local member of
    a cluster by its client URLs and building the configuration of the etcd
    process to start. */
module StartProcess {
  import opened Wrappers
  import opened EtcdTypes

  /** Element-wise equality of two string slices, as the Go helper computes it:
      lengths first, then index by index from the front. */
  function StringSlicesEqual(a: seq<string>, b: seq<string>): (r: bool)
    ensures r <==> a == b
  {
    |a| == |b| && AgreeFrom(a, b, 0)
  }

  /** The loop of `stringSlicesEqual` from index `i` onwards. */
  function AgreeFrom(a: seq<string>, b: seq<string>, i: nat): (r: bool)
    requires |a| == |b| && i <= |a|
    ensures r <==> a[i..] == b[i..]
    decreases |a| - i
  {
    if i == |a| then true
    else if b[i] != a[i] then false
    else
      assert a[i..] == [a[i]] + a[i + 1..] && b[i..] == [b[i]] + b[i + 1..];
      AgreeFrom(a, b, i + 1)
  }

  /** The members whose client URLs equal `urls`, in order: an independent
      reference for what the resolution loop counts. */
  function Matches(nodes: seq<Node>, urls: seq<string>): seq<Node>
  {
    if |nodes| == 0 then []
    else (if nodes[0].clientUrls == urls then [nodes[0]] else []) + Matches(nodes[1..], urls)
  }

  /** `me` is a member whose client URLs equal `urls`, and no two distinct
      positions of `nodes` carry those client URLs. */
  ghost predicate UniqueSelf(nodes: seq<Node>, urls: seq<string>, me: Node) {
    && me in nodes
    && me.clientUrls == urls
    && forall i, j :: 0 <= i < j < |nodes| && nodes[i].clientUrls == urls ==> nodes[j].clientUrls != urls
  }

  ghost predicate NoSelf(nodes: seq<Node>, urls: seq<string>) {
    forall i :: 0 <= i < |nodes| ==> nodes[i].clientUrls != urls
  }

  ghost predicate SeveralSelves(nodes: seq<Node>, urls: seq<string>) {
    exists i, j :: 0 <= i < j < |nodes| && nodes[i].clientUrls == urls && nodes[j].clientUrls == urls
  }

  lemma {:induction false} NoMatchIffNoSelf(nodes: seq<Node>, urls: seq<string>)
    ensures |Matches(nodes, urls)| == 0 <==> NoSelf(nodes, urls)
    decreases |nodes|
  {
    if |nodes| > 0 {
      NoMatchIffNoSelf(nodes[1..], urls);
      if NoSelf(nodes[1..], urls) && nodes[0].clientUrls != urls {
        forall i | 0 <= i < |nodes|
          ensures nodes[i].clientUrls != urls
        {
          if i > 0 {
            assert nodes[i] == nodes[1..][i - 1];
          }
        }
      }
      if NoSelf(nodes, urls) {
        forall i | 0 <= i < |nodes[1..]|
          ensures nodes[1..][i].clientUrls != urls
        {
          assert nodes[1..][i] == nodes[i + 1];
        }
      }
    }
  }

  lemma SingleMatchIffUnique(nodes: seq<Node>, urls: seq<string>, me: Node)
    ensures Matches(nodes, urls) == [me] <==> UniqueSelf(nodes, urls, me)
  {
    if Matches(nodes, urls) == [me] {
      SingleMatchIsUnique(nodes, urls, me);
    }
    if UniqueSelf(nodes, urls, me) {
      UniqueIsSingleMatch(nodes, urls, me);
    }
  }

  lemma {:induction false} SingleMatchIsUnique(nodes: seq<Node>, urls: seq<string>, me: Node)
    requires Matches(nodes, urls) == [me]
    ensures UniqueSelf(nodes, urls, me)
    decreases |nodes|
  {
    var tail := nodes[1..];
    if nodes[0].clientUrls == urls {
      assert Matches(tail, urls) == [];
      assert Matches(nodes, urls) == [nodes[0]];
      NoMatchIffNoSelf(tail, urls);
      forall i, j | 0 <= i < j < |nodes| && nodes[i].clientUrls == urls
        ensures nodes[j].clientUrls != urls
      {
        assert nodes[j] == tail[j - 1];
      }
    } else {
      assert Matches(tail, urls) == [me];
      SingleMatchIsUnique(tail, urls, me);
      assert nodes == [nodes[0]] + tail;
      forall i, j | 0 <= i < j < |nodes| && nodes[i].clientUrls == urls
        ensures nodes[j].clientUrls != urls
      {
        assert nodes[i] == tail[i - 1] && nodes[j] == tail[j - 1];
      }
    }
  }

  lemma {:induction false} UniqueIsSingleMatch(nodes: seq<Node>, urls: seq<string>, me: Node)
    requires UniqueSelf(nodes, urls, me)
    ensures Matches(nodes, urls) == [me]
    decreases |nodes|
  {
    var tail := nodes[1..];
    var k :| 0 <= k < |nodes| && nodes[k] == me;
    if nodes[0].clientUrls == urls {
      assert forall j :: 0 < j < |nodes| ==> nodes[j].clientUrls != urls;
      assert k == 0;
      assert NoSelf(tail, urls) by {
        forall t | 0 <= t < |tail|
          ensures tail[t].clientUrls != urls
        {
          assert tail[t] == nodes[t + 1];
        }
      }
      NoMatchIffNoSelf(tail, urls);
    } else {
      assert k > 0;
      assert tail[k - 1] == me;
      forall a, b | 0 <= a < b < |tail| && tail[a].clientUrls == urls
        ensures tail[b].clientUrls != urls
      {
        assert tail[a] == nodes[a + 1] && tail[b] == nodes[b + 1];
      }
      UniqueIsSingleMatch(tail, urls, me);
    }
  }

  /** Every element of `Matches` is a member carrying the given client URLs. */
  lemma {:induction false} MatchesAreSelves(nodes: seq<Node>, urls: seq<string>)
    ensures forall n :: n in Matches(nodes, urls) <==> n in nodes && n.clientUrls == urls
    decreases |nodes|
  {
    if |nodes| > 0 {
      MatchesAreSelves(nodes[1..], urls);
      assert nodes == [nodes[0]] + nodes[1..];
    }
  }

  lemma SeveralIffManyMatches(nodes: seq<Node>, urls: seq<string>)
    ensures |Matches(nodes, urls)| >= 2 <==> SeveralSelves(nodes, urls)
  {
    NoMatchIffNoSelf(nodes, urls);
    var m := Matches(nodes, urls);
    if |m| >= 2 {
      assert !UniqueSelf(nodes, urls, m[0]) by {
        SingleMatchIffUnique(nodes, urls, m[0]);
      }
      MatchesAreSelves(nodes, urls);
      assert m[0] in m;
      var i :| 0 <= i < |nodes| && nodes[i] == m[0];
      assert nodes[i].clientUrls == urls;
    }
    if |m| == 1 {
      SingleMatchIffUnique(nodes, urls, m[0]);
      assert m == [m[0]];
    }
  }

  /** The loop of `startEtcdProcess` over the members still to visit, with the
      match `found` so far: a second match is an error at once, and no match
      at all is an error once the members are exhausted. */
  function ScanSelf(rest: seq<Node>, urls: seq<string>, found: Option<Node>): (r: Result<Node, Error>)
    ensures var k := |Matches(rest, urls)| + (if found.Some? then 1 else 0);
      && (r.Success? <==> k == 1)
      && (r == Failure(SelfNotInCluster) <==> k == 0)
      && (r == Failure(MultipleSelf) <==> k >= 2)
      && (r.Success? ==> r.value == if found.Some? then found.value else Matches(rest, urls)[0])
    decreases |rest|
  {
    if |rest| == 0 then
      if found.Some? then Success(found.value) else Failure(SelfNotInCluster)
    else if StringSlicesEqual(rest[0].clientUrls, urls) then
      if found.Some? then Failure(MultipleSelf) else ScanSelf(rest[1..], urls, Some(rest[0]))
    else
      ScanSelf(rest[1..], urls, found)
  }

  /** The quantified description of a unique local member and the list of
      matching members agree for every candidate `me`. */
  lemma UniqueIffSingleMatch(nodes: seq<Node>, urls: seq<string>)
    ensures forall me :: UniqueSelf(nodes, urls, me) <==> Matches(nodes, urls) == [me]
  {
    forall me
      ensures UniqueSelf(nodes, urls, me) <==> Matches(nodes, urls) == [me]
    {
      SingleMatchIffUnique(nodes, urls, me);
    }
  }

  /** Resolves the unique member whose client URLs equal `urls`: it fails with
      SelfNotInCluster exactly when no member matches and with MultipleSelf
      exactly when two positions match; otherwise it returns the one match. */
  function ResolveSelf(nodes: seq<Node>, urls: seq<string>): (r: Result<Node, Error>)
    ensures r.Success? ==> UniqueSelf(nodes, urls, r.value)
    ensures forall me :: UniqueSelf(nodes, urls, me) ==> r == Success(me)
    ensures r == Failure(SelfNotInCluster) <==> NoSelf(nodes, urls)
    ensures r == Failure(MultipleSelf) <==> SeveralSelves(nodes, urls)
    ensures r.Success? || r == Failure(SelfNotInCluster) || r == Failure(MultipleSelf)
  {
    NoMatchIffNoSelf(nodes, urls);
    SeveralIffManyMatches(nodes, urls);
    UniqueIffSingleMatch(nodes, urls);
    ScanSelf(nodes, urls, None)
  }

  /** Joins the non-empty path elements with "/", as `filepath.Join` does
      before cleaning the result. */
  function PathJoin(parts: seq<string>): string
  {
    if |parts| == 0 then ""
    else
      var rest := PathJoin(parts[1..]);
      if parts[0] == "" then rest
      else if rest == "" then parts[0]
      else parts[0] + "/" + rest
  }

  /** The data directory of a cluster: `<baseDir>/data/<token>`. */
  function DataDir(baseDir: string, token: string): (r: string)
    ensures baseDir != "" && token != "" ==> r == baseDir + "/data/" + token
    ensures baseDir == "" && token != "" ==> r == "data/" + token
    ensures token == "" ==> r == if baseDir == "" then "data" else baseDir + "/data"
  {
    var parts := [baseDir, "data", token];
    assert parts[1..] == ["data", token] && parts[1..][1..] == [token] && [token][1..] == [];
    assert PathJoin([token]) == token;
    assert PathJoin(["data", token]) == if token == "" then "data" else "data/" + token;
    PathJoin(parts)
  }

  /** `p` runs cluster `c` on behalf of the node configured by `cfg`: same
      token and members, the unique local member as `me`, the token's data
      directory and the node's first client URL. */
  ghost predicate RunsCluster(cfg: Config, p: Process, c: Cluster) {
    && p.cluster.token == c.token
    && p.cluster.nodes == c.nodes
    && UniqueSelf(c.nodes, cfg.self.clientUrls, p.cluster.me)
    && p.dataDir == DataDir(cfg.baseDir, c.token)
    && |cfg.self.clientUrls| > 0
    && p.clientUrl == cfg.self.clientUrls[0]
  }

  /** `p` is the process `startEtcdProcess` launches for state `st`. */
  ghost predicate LaunchedFrom(cfg: Config, st: State, p: Process) {
    && st.cluster.Some?
    && RunsCluster(cfg, p, st.cluster.value)
    && p.createNewCluster == st.newCluster
  }

  /** Starts etcd for state `st`; `startOk` is whether `Start` succeeded. A
      state without a cluster and a node without client URLs make Go panic. */
  function StartEtcdProcess(cfg: Config, st: State, startOk: bool): (r: Result<Process, Error>)
    ensures r.Success? ==> LaunchedFrom(cfg, st, r.value)
    ensures r.Success? <==>
      && st.cluster.Some?
      && (exists me :: UniqueSelf(st.cluster.value.nodes, cfg.self.clientUrls, me))
      && |cfg.self.clientUrls| > 0
      && startOk
    ensures r == Failure(StartFailed) <==>
      && st.cluster.Some?
      && (exists me :: UniqueSelf(st.cluster.value.nodes, cfg.self.clientUrls, me))
      && |cfg.self.clientUrls| > 0
      && !startOk
    ensures st.cluster.None? ==> r == Failure(Panicked(NilCluster))
    ensures r == Failure(SelfNotInCluster) <==> st.cluster.Some? && NoSelf(st.cluster.value.nodes, cfg.self.clientUrls)
    ensures r == Failure(MultipleSelf) <==> st.cluster.Some? && SeveralSelves(st.cluster.value.nodes, cfg.self.clientUrls)
    ensures (st.cluster.Some? && (exists me :: UniqueSelf(st.cluster.value.nodes, cfg.self.clientUrls, me))
             && |cfg.self.clientUrls| == 0) ==> r == Failure(Panicked(NoLocalClientUrl))
  {
    match st.cluster
    case None => Failure(Panicked(NilCluster))
    case Some(c) =>
      match ResolveSelf(c.nodes, cfg.self.clientUrls)
      case Failure(e) => Failure(e)
      case Success(me) =>
        if |cfg.self.clientUrls| == 0 then Failure(Panicked(NoLocalClientUrl))
        else if !startOk then Failure(StartFailed)
        else Success(Process(
          st.newCluster,
          DataDir(cfg.baseDir, c.token),
          cfg.self.clientUrls[0],
          Membership(c.token, me, c.nodes)))
  }
}

=== FILE: types.dfy ===
/** The data of one etcd-manager node: the protobuf records it exchanges with
    its peers, the three guarded fields of `EtcdServer`, the abstract disk
    slot holding the state file, and the errors its handlers return. */
module EtcdTypes {
  import opened Wrappers

  /** Go's `time.Duration` counts nanoseconds; times are nanosecond stamps. */
  const PreparedValidity: nat := 60_000_000_000

  /** An `EtcdNode`: name, peer URLs and client URLs. Two nodes are the same
      member when their client URL lists are element-wise equal. */
  datatype Node = Node(name: string, peerUrls: seq<string>, clientUrls: seq<string>)

  /** The `EtcdCluster` recorded in the state: formation token and members. */
  datatype Cluster = Cluster(token: string, nodes: seq<Node>)

  /** The persisted `EtcdState`: an optional cluster and the `NewCluster` flag. */
  datatype State = State(cluster: Option<Cluster>, newCluster: bool)

  /** The in-memory reservation made by a PREPARE call. */
  datatype Prepared = Prepared(token: string, validUntil: nat)

  /** The cluster handed to a started etcd process: the token, the resolved
      self member `me`, and the full member list. */
  datatype Membership = Membership(token: string, me: Node, nodes: seq<Node>)

  /** A live `etcdProcess` handle, described by the configuration it was
      started with. */
  datatype Process = Process(
    createNewCluster: bool,
    dataDir: string,
    clientUrl: string,
    cluster: Membership)

  /** The contents of `<baseDir>/state` as the model sees it: no file yet, a
      decodable record, a file that cannot be read, or bytes that do not
      decode as an `EtcdState`. */
  datatype Disk = NoStateFile | StateFile(record: State) | Unreadable | Corrupt

  /** The fixed settings of an `EtcdServer`. */
  datatype Config = Config(baseDir: string, clusterName: string, self: Node)

  /** One node: its settings, the three fields guarded by the mutex, the
      disk slot, and `launches`, the number of etcd processes this node has
      started so far (it stands for the identity of each new `*etcdProcess`,
      so that a restart is told apart from keeping the same process). */
  datatype Server = Server(
    cfg: Config,
    state: Option<State>,
    prepared: Option<Prepared>,
    process: Option<Process>,
    disk: Disk,
    launches: nat)

  /** The `Phase` enum of a join request; `OtherPhase` is any other wire value. */
  datatype Phase = PhasePrepare | PhaseInitialCluster | PhaseJoinExisting | OtherPhase(code: int)

  datatype JoinRequest = JoinRequest(
    clusterName: string,
    leadershipToken: string,
    clusterToken: string,
    phase: Phase,
    nodes: seq<Node>)

  /** A backup request; `params` is the opaque `State` message, None when nil. */
  datatype BackupRequest = BackupRequest(
    clusterName: string,
    leadershipToken: string,
    storage: string,
    params: Option<string>)

  /** What the etcd process reports about a finished backup. */
  datatype BackupReply = BackupReply(name: string)

  datatype InfoResponse = InfoResponse(
    clusterName: string,
    etcdConfigured: bool,
    clusterToken: string,
    nodeConfiguration: Node)

  /** Where Go would panic instead of returning an error. */
  datatype Fault = NilCluster | NoLocalClientUrl

  datatype Error =
    | ClusterNameMismatch
    | NotLeader
    | ProcessAlreadyRunning
    | ConcurrentPrepare(pending: string)
    | NotPrepared
    | TokenMismatch(requested: string, prepared: string)
    | UnknownPhase
    | NotRunning
    | StorageRequired
    | StateRequired
    | StoreUnavailable
    | BackupFailed
    | SelfNotInCluster
    | MultipleSelf
    | StartFailed
    | StopFailed
    | ReadFailed
    | ParseFailed
    | WriteFailed
    | Panicked(fault: Fault)

  /** The outcome of one handler: its result and the node afterwards. */
  datatype Step<+T> = Step(result: Result<T, Error>, next: Server)

  /** How `ExitState` reports on a process: an exit error, a terminal
      process state, both, or neither (still running). */
  datatype ExitReport = ExitReport(exitError: bool, exitState: bool) {
    predicate Exited() {
      exitError || exitState
    }
  }

  /** A prepared reservation is expired once `now` is strictly after its end. */
  predicate Expired(p: Prepared, now: nat) {
    now > p.validUntil
  }
}

=== FILE: wrappers.dfy ===
/** Failure-carrying wrappers used throughout the model: `Option` stands for a
    Go pointer that may be nil, `Result` for a Go `(value, error)` pair. */
module Wrappers {

  datatype Option<+T> = None | Some(value: T)

  datatype Result<+R, +E> = Success(value: R) | Failure(error: E)
}
